=== FILE: README.md ===
# yamlize attributes in Dafny

A model of `yamlize/attribute.py` from yamlize, the library that maps YAML
documents onto Python classes. The file holds two pieces. An `Attribute`
describes one slot of a Yamlizable class: its Python `name`, its YAML `key`,
its `type` (or the `ANY` marker) and its `default` (or the `NODEFAULT`
marker). It also converts the slot's value in both directions. An
`AttributeCollection` keeps the attributes of one class, indexed by key and
by name, and refuses duplicates of either.

Files:

- `wrappers.dfy` (module `Wrappers`): `Option` and `Result`. A Python
  exception becomes an `Err`.
- `attributes.dfy` (module `Attributes`): the `Attribute` record and its
  constructor. It also has the binding of `Attribute(*tuple)` and
  `Attribute(**dict)`, plus `from_yaml` (`FromYaml`), `to_yaml` (`ToYaml`)
  and their properties.
- `collections.dfy` (module `Collections`): `AttributeCollection` with its
  invariant `Valid`, plus `add` (`Add`), the constructor (`Build`, `Init`)
  and their properties.

Values and YAML nodes are type parameters `V` and `N`. The descriptor uses
several operations that live elsewhere. Each is a field of a record, and
every statement holds for every choice of them:

- `Loader.construct` is `construct_object(node, deep=True)`.
- `Loader.represent` is `represent_data`.
- `Types.isInstance` is `isinstance`.
- `Types.coerce` is the single-argument call `T(value)`. It gives `None`
  when the call raises.
- `Types.fromYaml` and `Types.toYaml` are a Yamlizable type's own
  `from_yaml` and `to_yaml`.

"Does not call X" is stated as "the result is the same when X is replaced by
anything else".

The declared type is `Any | Plain(tid) | Nested(tid)`. `Nested` stands for a
subclass of Yamlizable. The default is `NoDefault | Default(v)`. Neither
marker is a value.

Errors follow the code:

- A failed coercion in `from_yaml` (attribute.py:53-57) is
  `CoercionFailed(value, type, Some(node))`.
- A failed coercion on the plain path of `to_yaml` (attribute.py:73-77) is
  `CoercionFailed(value, type, None)`.
- A failed coercion on the nested path of `to_yaml` (attribute.py:69) is
  `RaisedByConstructor(value, type)`. That call has no `try`, so the raw
  exception escapes. Only the plain path (attribute.py:73-77), which does
  have a `try`, raises a YamlizingError.
- Both collisions in `add` are KeyErrors. Each names the clashing key or
  name and the attribute registered under it before.

## Model

| member | source | states |
|---|---|---|
| Attributes.NewAttribute | yamlize/attribute.py:36-40 | name, type and default are stored as given. The key is the given key when that key is present and non-empty; otherwise it is the name. |
| Attributes.FromArgs | yamlize/attribute.py:36-40 | binding succeeds exactly when each argument fits its parameter. An omitted or empty key falls back to the name, and `NODEFAULT` stays the no-default marker. |
| Attributes.FromPositional | yamlize/attribute.py:36-40 | `Attribute(*args)` fails with no arguments (name missing) and with more than four. With one to four it succeeds exactly when each argument fits its parameter, the missing trailing ones defaulted; otherwise it is a typing fault. Positions are name, key, type and default. A non-empty key is used, and a missing, `None` or empty one falls back to the name. A missing type is `ANY`, and a missing default or `NODEFAULT` gives no default. |
| Attributes.FromKeywords | yamlize/attribute.py:36-40 | `Attribute(**kw)` refuses an unknown keyword first, then a missing `name`. Otherwise it succeeds exactly when each argument fits its parameter. A supplied `type` and a supplied value `default` are used. A supplied non-empty `key` is used. An omitted, `None` or empty key gives the name, an omitted type gives `ANY`, and an omitted default or `NODEFAULT` gives no default. |
| Attributes.PositionalAgreesWithKeywords | yamlize/attribute.py:36-40 | any zero to four positional arguments give the same result, attribute or fault, as the same arguments passed under their parameter names. |
| Attributes.FullCallBuildsNewAttribute | yamlize/attribute.py:91-94 | a full `(name, key, type, default)` tuple and the matching dict both build the attribute that the constructor describes for those four values. The key may be a string or `None`, and the default a value or `NODEFAULT`. |
| Attributes.FromYaml | yamlize/attribute.py:42-57 | a nested type returns its own `from_yaml` result. `ANY`, or a loaded value that is already an instance, returns that value. Otherwise the result is the coercion when it succeeds, else an error carrying the value, the type and the node, and never a value. |
| Attributes.NestedFromYamlOnlyDelegates | yamlize/attribute.py:45-46 | for a nested type `Attribute.from_yaml` itself neither loads the node nor coerces it: the result is the type's own `from_yaml` of the node, unchanged when the loader or the coercion is replaced. |
| Attributes.PassThroughNeverCoerces | yamlize/attribute.py:48-51 | with `ANY`, or an instance, the loaded value is returned unchanged whatever coercion would do. |
| Attributes.ToYaml | yamlize/attribute.py:59-79 | a nested instance goes to its type's `to_yaml`. A nested non-instance equal to the declared default emits nothing (and only then). Otherwise it is coerced, and a failure is the unwrapped constructor error. `ANY` or a plain instance is represented as is. A plain non-instance is represented after coercion, else it is a YamlizingError without a node. Only a nested attribute can emit nothing. |
| Attributes.DefaultOmittedBeforeCoercion | yamlize/attribute.py:62-66 | the default check comes before any coercion. The omission holds whatever coercion or the nested `to_yaml` would do. |
| Attributes.RequiredAttributeNeverOmitted | yamlize/attribute.py:59-79 | an attribute without a default is never omitted. |
| Attributes.ValueRoundTrip | yamlize/attribute.py:42-79 | for a plain type or `ANY`, a value already of the type (any value for `ANY`) is written as its representation. Given a loader that reads back what it represents, it reads back unchanged. |
| Attributes.CoercedRoundTrip | yamlize/attribute.py:42-79 | for a plain type, take a value of the wrong type whose coercion succeeds to an instance. It is written as that coercion. Given a loader that reads back what it represents, reading it back yields the coercion. |
| Attributes.NodeRoundTrip | yamlize/attribute.py:42-79 | for a plain type or `ANY`, reading a node whose value already has the type, then writing the result, gives the representation of the loaded value. |
| Attributes.NestedRoundTrip | yamlize/attribute.py:45-70 | for a nested type the round trip is exactly that of the type's own `from_yaml`/`to_yaml`. |
| Collections.Add | yamlize/attribute.py:100-110 | a used key is reported first, naming the previous attribute; then a used name. It succeeds exactly when neither is used. It then files the attribute under its key and its name, leaves all other entries as they were, appends it to the order and keeps the invariant. |
| Collections.InsertPreservesValid | yamlize/attribute.py:109-110 | filing an attribute with an unused key and an unused name keeps both maps consistent with each other and with the order. |
| Collections.Normalize | yamlize/attribute.py:89-97 | an Attribute is kept. A dict gives the result of `Attribute(**dict)` and a tuple or list that of `Attribute(*seq)`, with a failed call reported as a bad call. Anything else is refused. It never reports a collision. |
| Collections.BuildFrom | yamlize/attribute.py:89-98 | adding the elements in turn keeps the invariant and appends one attribute per element after the existing ones. |
| Collections.Build | yamlize/attribute.py:86-98 | a constructed collection satisfies the invariant and holds one attribute per element. |
| Collections.Init | yamlize/attribute.py:86-98 | the constructor loop gives exactly the collection (or the first error) that `Build` describes. |
| Collections.LookupSymmetry | yamlize/attribute.py:109-110 | every listed attribute is what `by_key` returns for its key and `by_name` returns for its name. |
| Collections.IndexesHoldSameAttributes | yamlize/attribute.py:100-110 | `by_key` and `by_name` hold the same attributes, namely those in the order. |
| Collections.AddAllSucceedsIff | yamlize/attribute.py:89-110 | adding Attribute objects one by one succeeds exactly when none clashes with the collection or with another. It then appends them in the order given. |
| Collections.BuildFromNormalized | yamlize/attribute.py:89-98 | normalizing each element only when it is reached gives the same outcome as adding the attributes the elements normalize to. |
| Collections.BuildSucceedsIff | yamlize/attribute.py:86-110 | when every element normalizes to an attribute, construction from an empty start succeeds exactly when those attributes repeat no key and no name. The result lists them in the order given. |
| Collections.BuildNeedsEveryElement | yamlize/attribute.py:89-97 | a construction that succeeds has normalized every element. An element that is not an Attribute, dict, tuple or list (the TypeError), or whose `Attribute(...)` call fails, makes construction fail. |
| Collections.BuildAgreesOnNormalization | yamlize/attribute.py:89-98 | elements that normalize alike build the same collection or fail alike. |
| Collections.BuildComposes | yamlize/attribute.py:89-98 | building from `items + more` is building from `items`, then from `more`. The first failure aborts construction and later elements are never looked at. |
| Collections.KeyCollisionRejected | yamlize/attribute.py:101-103 | a second attribute with a used key is refused with a key collision naming the first. |
| Collections.NameCollisionRejected | yamlize/attribute.py:105-107 | a second attribute with a new key but a used name is refused with a name collision naming the first. |
| Collections.TuplesBuildLikeAttributes | yamlize/attribute.py:93-98 | a collection built from `(name, key, type, default)` tuples, with a string or `None` key and a value or `NODEFAULT` default, equals the one built from the corresponding Attribute objects. |

## Left out

- `inspect.isclass(self.type) and issubclass(self.type, Yamlizable)`, and the deferred import of `Yamlizable`: the `Nested` tag takes their place. The Yamlizable class is not part of this model.
- The loader's `construct_object` and `represent_data` are total functions. Exceptions they raise are not modelled, because the YAML loader is not part of this model.
- A Yamlizable type's `from_yaml` and `to_yaml` receive the loader in Python. Here they are fixed functions of the `Types` record, so they cannot depend on a different loader.
- The text of error messages (`str.format`) is not modelled. Errors are tagged values.
- The bare `except:` catches every exception, including ones that are not about coercion. Here a failed coercion is just `None` from `Types.coerce`.
- `NODEFAULT()` and `ANY()` raise NotImplementedError. Here the markers are datatype tags and not values, so they cannot be instantiated at all. As a consequence the test `data is not NODEFAULT` in `to_yaml` always holds, and a `data` that is the `NODEFAULT` class itself cannot be expressed.
- Python identity (`is`) and user-defined `__eq__` are not modelled. The `ANY`/`NODEFAULT` checks are tag tests, and `data == self.default` is structural equality on values.
- `isinstance` called with something that is not a class (it raises in Python) is not modelled: a declared type is always a class.
- Keyword arguments to `AttributeCollection(...)` are accepted and ignored by `AttributeCollection.__init__`, so `Init` has no parameter for them.
- The lookups `by_key[k]` and `by_name[n]` are plain map accesses; there is no separate lookup operation in yamlize's `AttributeCollection`.
- Attributes.FromArgs: Python stores whatever object it is given in each slot. The model refuses, with `IllTyped`, a name that is not a string, a key that is neither a string nor `None`, a type that is not a declared type, and a default that is neither a value nor `NODEFAULT`. Any object passed as the default, `None` and strings included, is a `ValueArg`. The `IllTyped("default")` refusal therefore covers only argument encodings that no Python default is given.
- Attributes.NewAttribute: only strings and `None` are considered for `key`. Other falsy keys (`0`, `False`, `[]`) also fall back to the name in Python.
- Attributes.FromKeywords: Python's TypeError for an unknown keyword names that keyword. The model's `UnexpectedKeyword` does not, because a map has no order to pick the first one by.

=== FILE: attributes.dfy ===
/**
  The attribute descriptor of yamlize: one named, typed slot of a Python
  class and the key/value pair that carries it in YAML.

  Values and nodes are left abstract (type parameters `V` and `N`).  The
  operations the descriptor borrows from elsewhere (the YAML loader's
  `construct_object`/`represent_data`, Python's `isinstance`, the
  single-argument call `T(value)`, and a Yamlizable type's own
  `from_yaml`/`to_yaml`) are fields of the two records `Loader` and `Types`,
  so that every statement below holds for every choice of them.
 */
module Attributes {
  import opened Wrappers

  /** The identity of a Python type. */
  type TypeId = string

  /** What an attribute's `type` may be: the `ANY` marker, an ordinary type,
      or a subclass of Yamlizable (which handles its own YAML conversion). */
  datatype DeclaredType = Any | Plain(tid: TypeId) | Nested(tid: TypeId)

  /** An attribute's default: the `NODEFAULT` marker (the attribute is
      required) or an actual value.  Neither marker is itself a value. */
  datatype DefaultValue<V> = NoDefault | Default(value: V)

  datatype Attribute<V> = Attribute(name: string, key: string, typ: DeclaredType, default: DefaultValue<V>)

  /** The errors raised while converting a value.  `CoercionFailed` is the
      YamlizingError of yamlize, carrying the offending value, the target
      type and, on input, the node; `RaisedByConstructor` is whatever
      `T(value)` raised, let through unwrapped. */
  datatype Error<V, N> =
    | CoercionFailed(value: V, target: TypeId, node: Option<N>)
    | RaisedByConstructor(value: V, target: TypeId)

  /** The two primitives of the YAML loader: `construct_object(node, deep=True)`
      and `represent_data(value)`. */
  datatype Loader<!V, !N> = Loader(construct: N -> V, represent: V -> N)

  /** What the descriptor asks of Python's types: `isinstance(value, T)`,
      the single-argument call `T(value)` (None when it raises), and the
      `from_yaml`/`to_yaml` of a Yamlizable type. */
  datatype Types<!V, !N> = Types(
    isInstance: (V, TypeId) -> bool,
    coerce: (TypeId, V) -> Option<V>,
    fromYaml: (TypeId, N) -> Result<V, Error<V, N>>,
    toYaml: (TypeId, V) -> Result<N, Error<V, N>>)

  /** The key used in YAML: the given key when it is present and non-empty
      (truthy), the attribute's name otherwise. */
  function NewAttribute<V>(name: string, key: Option<string>, typ: DeclaredType, default: DefaultValue<V>): (a: Attribute<V>)
    ensures a.name == name && a.typ == typ && a.default == default
    ensures key.Some? && key.value != "" ==> a.key == key.value
    ensures key == None || key == Some("") ==> a.key == name
  {
    Attribute(name, if key.Some? && key.value != "" then key.value else name, typ, default)
  }

  /* ---------------------------------------------------------------------
     Calling `Attribute(...)` with arguments that came from a tuple, a list
     or a dict.
     --------------------------------------------------------------------- */

  /** A Python argument, by the role it can play in `Attribute.__init__`:
      a string (a name or a key), `None` (no key), a declared type, a value
      (a default), or the `NODEFAULT` marker.  Any object passed as the
      default, `None` and strings included, is a `ValueArg`. */
  datatype Arg<V> = Text(s: string) | Null | TypeArg(t: DeclaredType) | ValueArg(v: V) | NoDefaultArg

  /** Why a call `Attribute(...)` raised TypeError.  `IllTyped` names a
      parameter given an argument this model cannot store there. */
  datatype CallFault = MissingName | TooManyPositional(given: nat) | UnexpectedKeyword | IllTyped(param: string)

  /** The parameter names of `Attribute.__init__`. */
  const Parameters: set<string> := {"name", "key", "type", "default"}

  /** The positional order of those parameters. */
  const ParameterOrder: seq<string> := ["name", "key", "type", "default"]

  /** Each argument is something the model can store in its parameter: a
      string name, a string or `None` key, a declared type, and a value or
      `NODEFAULT` as default. */
  predicate Fits<V>(name: Arg<V>, key: Arg<V>, typ: Arg<V>, default: Arg<V>)
  {
    name.Text? && (key.Text? || key.Null?) && typ.TypeArg? && (default.ValueArg? || default.NoDefaultArg?)
  }

  /** Binds the four (already defaulted) arguments of `Attribute.__init__`. */
  function FromArgs<V>(name: Arg<V>, key: Arg<V>, typ: Arg<V>, default: Arg<V>): (r: Result<Attribute<V>, CallFault>)
    ensures r.Ok? <==> Fits(name, key, typ, default)
    ensures r.Err? ==> r.error.IllTyped?
    ensures r.Ok? ==> r.value.name == name.s && r.value.typ == typ.t
    ensures r.Ok? && key.Text? && key.s != "" ==> r.value.key == key.s
    ensures r.Ok? && (key.Null? || key == Text("")) ==> r.value.key == name.s
    ensures r.Ok? ==> (r.value.default.NoDefault? <==> default.NoDefaultArg?)
    ensures r.Ok? && default.ValueArg? ==> r.value.default == Default(default.v)
  {
    if !name.Text? then Err(IllTyped("name"))
    else if !(key.Text? || key.Null?) then Err(IllTyped("key"))
    else if !typ.TypeArg? then Err(IllTyped("type"))
    else if !(default.ValueArg? || default.NoDefaultArg?) then Err(IllTyped("default"))
    else
      var k := if key.Text? then Some(key.s) else None;
      var d := if default.ValueArg? then Default(default.v) else NoDefault;
      Ok(NewAttribute(name.s, k, typ.t, d))
  }

  /** The argument at position `i`, or the parameter's default when the
      call gave fewer arguments. */
  function ArgAt<V>(args: seq<Arg<V>>, i: nat, absent: Arg<V>): Arg<V>
  {
    if i < |args| then args[i] else absent
  }

  /** The keyword argument `p`, or the parameter's default when absent. */
  function Keyword<V>(kw: map<string, Arg<V>>, p: string, absent: Arg<V>): Arg<V>
  {
    if p in kw then kw[p] else absent
  }

  /** `Attribute(*args)`: one to four positional arguments, taken in the
      order name, key, type, default; the missing trailing ones take the
      parameters' defaults (`None`, `ANY`, `NODEFAULT`). */
  function FromPositional<V>(args: seq<Arg<V>>): (r: Result<Attribute<V>, CallFault>)
    ensures |args| == 0 ==> r == Err(MissingName)
    ensures |args| > 4 ==> r == Err(TooManyPositional(|args|))
    ensures 1 <= |args| <= 4 ==>
      (r.Ok? <==> Fits(args[0], ArgAt(args, 1, Null), ArgAt(args, 2, TypeArg(Any)), ArgAt(args, 3, NoDefaultArg)))
    ensures 1 <= |args| <= 4 && r.Err? ==> r.error.IllTyped?
    ensures r.Ok? ==> 1 <= |args| <= 4 && Text(r.value.name) == args[0]
    ensures r.Ok? && |args| >= 2 && args[1].Text? && args[1].s != "" ==> r.value.key == args[1].s
    ensures r.Ok? && (|args| < 2 || args[1] == Null || args[1] == Text("")) ==> r.value.key == r.value.name
    ensures r.Ok? && |args| >= 3 ==> TypeArg(r.value.typ) == args[2]
    ensures r.Ok? && |args| < 3 ==> r.value.typ == Any
    ensures r.Ok? && |args| == 4 && args[3].ValueArg? ==> r.value.default == Default(args[3].v)
    ensures r.Ok? && (|args| < 4 || args[3] == NoDefaultArg) ==> r.value.default == NoDefault
    ensures |args| == 1 && args[0].Text? ==> r == Ok(Attribute(args[0].s, args[0].s, Any, NoDefault))
  {
    if |args| == 0 then Err(MissingName)
    else if |args| > 4 then Err(TooManyPositional(|args|))
    else FromArgs(args[0], ArgAt(args, 1, Null), ArgAt(args, 2, TypeArg(Any)), ArgAt(args, 3, NoDefaultArg))
  }

  /** `Attribute(**kw)`: an unknown keyword is refused before a missing
      `name` is noticed. */
  function FromKeywords<V>(kw: map<string, Arg<V>>): (r: Result<Attribute<V>, CallFault>)
    ensures !(kw.Keys <= Parameters) ==> r == Err(UnexpectedKeyword)
    ensures kw.Keys <= Parameters && "name" !in kw ==> r == Err(MissingName)
    ensures r.Ok? <==> (kw.Keys <= Parameters && "name" in kw &&
      Fits(kw["name"], Keyword(kw, "key", Null), Keyword(kw, "type", TypeArg(Any)), Keyword(kw, "default", NoDefaultArg)))
    ensures kw.Keys <= Parameters && "name" in kw && r.Err? ==> r.error.IllTyped?
    ensures r.Ok? ==> "name" in kw && Text(r.value.name) == kw["name"]
    ensures r.Ok? && "key" in kw && kw["key"].Text? && kw["key"].s != "" ==> r.value.key == kw["key"].s
    ensures r.Ok? && ("key" !in kw || kw["key"] == Null || kw["key"] == Text("")) ==> r.value.key == r.value.name
    ensures r.Ok? && "type" in kw ==> TypeArg(r.value.typ) == kw["type"]
    ensures r.Ok? && "type" !in kw ==> r.value.typ == Any
    ensures r.Ok? && "default" in kw && kw["default"].ValueArg? ==> r.value.default == Default(kw["default"].v)
    ensures r.Ok? && ("default" !in kw || kw["default"] == NoDefaultArg) ==> r.value.default == NoDefault
  {
    if !(kw.Keys <= Parameters) then Err(UnexpectedKeyword)
    else if "name" !in kw then Err(MissingName)
    else FromArgs(kw["name"], Keyword(kw, "key", Null), Keyword(kw, "type", TypeArg(Any)), Keyword(kw, "default", NoDefaultArg))
  }

  /** The keyword arguments that name the positional arguments `args`:
      the i-th argument under the i-th parameter name. */
  function KeywordsOf<V>(args: seq<Arg<V>>): (kw: map<string, Arg<V>>)
    requires |args| <= 4
    ensures kw.Keys <= Parameters
    ensures forall i :: 0 <= i < |args| ==> ParameterOrder[i] in kw && kw[ParameterOrder[i]] == args[i]
    ensures forall i :: |args| <= i < 4 ==> ParameterOrder[i] !in kw
  {
    if |args| == 0 then map[]
    else KeywordsOf(args[..|args| - 1])[ParameterOrder[|args| - 1] := args[|args| - 1]]
  }

  /** Passing up to four arguments by position or under their parameter
      names is the same call: both succeed with the same attribute or fail
      with the same fault. */
  lemma PositionalAgreesWithKeywords<V>(args: seq<Arg<V>>)
    requires |args| <= 4
    ensures FromPositional(args) == FromKeywords(KeywordsOf(args))
  {
  }

  /** The argument that passes key `key`: the string, or `None`. */
  function KeyArg<V>(key: Option<string>): Arg<V>
  {
    if key.Some? then Text(key.value) else Null
  }

  /** The argument that passes default `default`: the value, or `NODEFAULT`. */
  function DefaultArg<V>(default: DefaultValue<V>): Arg<V>
  {
    if default.Default? then ValueArg(default.value) else NoDefaultArg
  }

  /** The positional arguments that spell out an attribute's four parts. */
  function TupleOf<V>(name: string, key: Option<string>, typ: DeclaredType, default: DefaultValue<V>): seq<Arg<V>>
  {
    [Text(name), KeyArg(key), TypeArg(typ), DefaultArg(default)]
  }

  /** A call that spells out all four arguments, by position or by name,
      builds the attribute that `NewAttribute` describes. */
  lemma FullCallBuildsNewAttribute<V>(name: string, key: Option<string>, typ: DeclaredType, default: DefaultValue<V>)
    ensures FromPositional(TupleOf(name, key, typ, default))
         == FromKeywords(map["name" := Text(name), "key" := KeyArg(key), "type" := TypeArg(typ), "default" := DefaultArg(default)])
         == Ok(NewAttribute(name, key, typ, default))
  {
    var kw := map["name" := Text(name), "key" := KeyArg(key), "type" := TypeArg(typ), "default" := DefaultArg(default)];
    assert kw.Keys == Parameters;
  }

  /* ---------------------------------------------------------------------
     YAML -> Python
     --------------------------------------------------------------------- */

  /** `Attribute.from_yaml`: a Yamlizable type converts the node itself;
      otherwise the loader's value is kept when the type is `ANY` or the
      value already has the type, and coerced by `T(value)` when not. */
  function FromYaml<V, N>(types: Types<V, N>, loader: Loader<V, N>, a: Attribute<V>, node: N): (r: Result<V, Error<V, N>>)
    ensures a.typ.Nested? ==> r == types.fromYaml(a.typ.tid, node)
    ensures a.typ.Any? ==> r == Ok(loader.construct(node))
    ensures a.typ.Plain? && types.isInstance(loader.construct(node), a.typ.tid) ==> r == Ok(loader.construct(node))
    ensures a.typ.Plain? && !types.isInstance(loader.construct(node), a.typ.tid) ==>
      (r.Ok? <==> types.coerce(a.typ.tid, loader.construct(node)).Some?) &&
      (r.Ok? ==> Some(r.value) == types.coerce(a.typ.tid, loader.construct(node))) &&
      (r.Err? ==> r.error == CoercionFailed(loader.construct(node), a.typ.tid, Some(node)))
  {
    match a.typ
    case Nested(t) => types.fromYaml(t, node)
    case Any => Ok(loader.construct(node))
    case Plain(t) =>
      var value := loader.construct(node);
      if types.isInstance(value, t) then Ok(value)
      else (match types.coerce(t, value)
        case Some(w) => Ok(w)
        case None => Err(CoercionFailed(value, t, Some(node))))
  }

  /* ---------------------------------------------------------------------
     Python -> YAML
     --------------------------------------------------------------------- */

  /** `Attribute.to_yaml`, with `None` for "emit nothing".  For a Yamlizable
      type a value that is not yet an instance is first compared with the
      default (and omitted when equal), then coerced without wrapping the
      error; for any other type except `ANY` a failed coercion is a
      YamlizingError without a node. */
  function ToYaml<V(==), N>(types: Types<V, N>, loader: Loader<V, N>, a: Attribute<V>, data: V): (r: Result<Option<N>, Error<V, N>>)
    ensures a.typ.Nested? && types.isInstance(data, a.typ.tid) ==>
      r == Emitted(types.toYaml(a.typ.tid, data))
    ensures a.typ.Nested? && !types.isInstance(data, a.typ.tid) ==>
      (r == Ok(None) <==> a.default == Default(data))
    ensures a.typ.Nested? && !types.isInstance(data, a.typ.tid) && a.default != Default(data) ==>
      (match types.coerce(a.typ.tid, data)
       case None => r == Err(RaisedByConstructor(data, a.typ.tid))
       case Some(w) => r == Emitted(types.toYaml(a.typ.tid, w)))
    ensures a.typ.Any? ==> r == Ok(Some(loader.represent(data)))
    ensures a.typ.Plain? && types.isInstance(data, a.typ.tid) ==> r == Ok(Some(loader.represent(data)))
    ensures a.typ.Plain? && !types.isInstance(data, a.typ.tid) ==>
      (match types.coerce(a.typ.tid, data)
       case None => r == Err(CoercionFailed(data, a.typ.tid, None))
       case Some(w) => r == Ok(Some(loader.represent(w))))
    ensures !a.typ.Nested? ==> r != Ok(None)
  {
    match a.typ
    case Nested(t) =>
      if types.isInstance(data, t) then Emitted(types.toYaml(t, data))
      else if a.default == Default(data) then Ok(None)
      else (match types.coerce(t, data)
        case None => Err(RaisedByConstructor(data, t))
        case Some(w) => Emitted(types.toYaml(t, w)))
    case Any => Ok(Some(loader.represent(data)))
    case Plain(t) =>
      if types.isInstance(data, t) then Ok(Some(loader.represent(data)))
      else match types.coerce(t, data)
        case None => Err(CoercionFailed(data, t, None))
        case Some(w) => Ok(Some(loader.represent(w)))
  }

  /** A node produced by a Yamlizable type's `to_yaml`, always emitted. */
  function Emitted<V, N>(produced: Result<N, Error<V, N>>): Result<Option<N>, Error<V, N>>
  {
    match produced
    case Ok(n) => Ok(Some(n))
    case Err(e) => Err(e)
  }

  /* ---------------------------------------------------------------------
     Properties of the two directions
     --------------------------------------------------------------------- */

  /** A Yamlizable attribute's value is whatever its type's `from_yaml`
      makes of the node: neither the loader nor `T(value)` takes part. */
  lemma NestedFromYamlOnlyDelegates<V, N>(types: Types<V, N>, loader: Loader<V, N>, a: Attribute<V>, node: N,
                                          otherLoader: Loader<V, N>, otherCoerce: (TypeId, V) -> Option<V>)
    requires a.typ.Nested?
    ensures FromYaml(types.(coerce := otherCoerce), otherLoader, a, node)
         == FromYaml(types, loader, a, node)
         == types.fromYaml(a.typ.tid, node)
  {
  }

  /** With type `ANY`, or a loaded value that already has the type, the
      loaded value is returned as it is, whatever `T(value)` would do. */
  lemma PassThroughNeverCoerces<V, N>(types: Types<V, N>, loader: Loader<V, N>, a: Attribute<V>, node: N,
                                      otherCoerce: (TypeId, V) -> Option<V>)
    requires a.typ.Any? || (a.typ.Plain? && types.isInstance(loader.construct(node), a.typ.tid))
    ensures FromYaml(types.(coerce := otherCoerce), loader, a, node) == Ok(loader.construct(node))
  {
  }

  /** A Yamlizable attribute whose value equals its declared default is
      omitted before any coercion or `to_yaml` is attempted: the outcome is
      the same whatever those would have done, even if `T(value)` raises. */
  lemma DefaultOmittedBeforeCoercion<V, N>(types: Types<V, N>, loader: Loader<V, N>, a: Attribute<V>, data: V,
                                               otherCoerce: (TypeId, V) -> Option<V>,
                                               otherToYaml: (TypeId, V) -> Result<N, Error<V, N>>)
    requires a.typ.Nested? && !types.isInstance(data, a.typ.tid) && a.default == Default(data)
    ensures ToYaml(types.(coerce := otherCoerce, toYaml := otherToYaml), loader, a, data) == Ok(None)
  {
  }

  /** Only a declared default can make `to_yaml` emit nothing: a required
      attribute is always written out, or the conversion fails. */
  lemma RequiredAttributeNeverOmitted<V, N>(types: Types<V, N>, loader: Loader<V, N>, a: Attribute<V>, data: V)
    requires a.default == NoDefault
    ensures ToYaml(types, loader, a, data) != Ok(None)
  {
  }

  /** A value that already has the declared type (or any value, for `ANY`)
      survives writing and reading back, given a loader that reads back
      what it represents. */
  lemma ValueRoundTrip<V, N>(types: Types<V, N>, loader: Loader<V, N>, a: Attribute<V>, v: V)
    requires a.typ.Any? || (a.typ.Plain? && types.isInstance(v, a.typ.tid))
    requires loader.construct(loader.represent(v)) == v
    ensures ToYaml(types, loader, a, v) == Ok(Some(loader.represent(v)))
    ensures FromYaml(types, loader, a, loader.represent(v)) == Ok(v)
  {
  }

  /** A value of the wrong type is written as its coercion, and reading it
      back yields that coercion. */
  lemma CoercedRoundTrip<V, N>(types: Types<V, N>, loader: Loader<V, N>, a: Attribute<V>, v: V, w: V)
    requires a.typ.Plain? && !types.isInstance(v, a.typ.tid)
    requires types.coerce(a.typ.tid, v) == Some(w) && types.isInstance(w, a.typ.tid)
    requires loader.construct(loader.represent(w)) == w
    ensures ToYaml(types, loader, a, v) == Ok(Some(loader.represent(w)))
    ensures FromYaml(types, loader, a, loader.represent(w)) == Ok(w)
  {
  }

  /** Reading a node whose loaded value already has the type, then writing
      the result, gives the loader's representation of that value. */
  lemma NodeRoundTrip<V, N>(types: Types<V, N>, loader: Loader<V, N>, a: Attribute<V>, node: N)
    requires a.typ.Any? || (a.typ.Plain? && types.isInstance(loader.construct(node), a.typ.tid))
    ensures FromYaml(types, loader, a, node) == Ok(loader.construct(node))
    ensures ToYaml(types, loader, a, loader.construct(node)) == Ok(Some(loader.represent(loader.construct(node))))
  {
  }

  /** For a Yamlizable attribute the round trip is exactly that of its type. */
  lemma NestedRoundTrip<V, N>(types: Types<V, N>, loader: Loader<V, N>, a: Attribute<V>, v: V, n: N)
    requires a.typ.Nested? && types.isInstance(v, a.typ.tid)
    requires types.toYaml(a.typ.tid, v) == Ok(n) && types.fromYaml(a.typ.tid, n) == Ok(v)
    ensures ToYaml(types, loader, a, v) == Ok(Some(n))
    ensures FromYaml(types, loader, a, n) == Ok(v)
  {
  }
}

=== FILE: collections.dfy ===
/**
  yamlize's AttributeCollection: the attributes of one Yamlizable class,
  indexed both by YAML key and by Python name, with duplicates of either
  refused.  `order` keeps the insertion order the two dicts preserve, which
  is the order the attributes are later written out in.
 */
module Collections {
  import opened Wrappers
  import opened Attributes

  datatype AttributeCollection<V> = AttributeCollection(
    byKey: map<string, Attribute<V>>,
    byName: map<string, Attribute<V>>,
    order: seq<Attribute<V>>)

  /** An element handed to the constructor: an Attribute, a dict of keyword
      arguments, a tuple or list of positional arguments, or anything else. */
  datatype Item<V> =
    | AttributeItem(attr: Attribute<V>)
    | DictItem(kw: map<string, Arg<V>>)
    | SequenceItem(args: seq<Arg<V>>)
    | OtherItem

  /** `KeyCollision` and `NameCollision` are the KeyErrors of `add`, naming
      the clashing key or name and the attribute registered under it before;
      `BadCall` is the TypeError of `Attribute(...)` on a dict, tuple or list;
      `UnsupportedItem` is the TypeError for any other element. */
  datatype CollectionError<V> =
    | KeyCollision(key: string, previous: Attribute<V>)
    | NameCollision(name: string, previous: Attribute<V>)
    | BadCall(fault: CallFault)
    | UnsupportedItem

  /** No two attributes share a key, and no two share a name. */
  ghost predicate Distinct<V>(attrs: seq<Attribute<V>>)
  {
    forall i, j :: 0 <= i < j < |attrs| ==> attrs[i].key != attrs[j].key && attrs[i].name != attrs[j].name
  }

  /** Every entry of `byKey` is filed under its own key and also listed in `order`. */
  ghost predicate KeysIndexed<V>(c: AttributeCollection<V>)
  {
    forall k :: k in c.byKey ==> c.byKey[k].key == k && c.byKey[k] in c.order
  }

  /** Every entry of `byName` is filed under its own name and also listed in `order`. */
  ghost predicate NamesIndexed<V>(c: AttributeCollection<V>)
  {
    forall n :: n in c.byName ==> c.byName[n].name == n && c.byName[n] in c.order
  }

  /** Every attribute listed in `order` is found under its key and under its name. */
  ghost predicate OrderIndexed<V>(c: AttributeCollection<V>)
  {
    forall i :: 0 <= i < |c.order| ==>
      && c.order[i].key in c.byKey && c.byKey[c.order[i].key] == c.order[i]
      && c.order[i].name in c.byName && c.byName[c.order[i].name] == c.order[i]
  }

  /** The collection invariant: both maps file each attribute under its own
      key or name, the two maps and `order` hold the same attributes, and
      `order` repeats no key and no name. */
  ghost predicate Valid<V>(c: AttributeCollection<V>)
  {
    && KeysIndexed(c)
    && NamesIndexed(c)
    && OrderIndexed(c)
    && Distinct(c.order)
    && |c.byKey| == |c.order| && |c.byName| == |c.order|
  }

  /** The collection before any attribute is added. */
  function Empty<V>(): AttributeCollection<V>
  {
    AttributeCollection(map[], map[], [])
  }

  /** `AttributeCollection.add`: a clashing key is reported first, then a
      clashing name; only an attribute clashing with neither is filed in both
      maps (and appended to the order).  On failure the caller keeps the
      collection it had. */
  function Add<V>(c: AttributeCollection<V>, a: Attribute<V>): (r: Result<AttributeCollection<V>, CollectionError<V>>)
    ensures a.key in c.byKey ==> r == Err(KeyCollision(a.key, c.byKey[a.key]))
    ensures a.key !in c.byKey && a.name in c.byName ==> r == Err(NameCollision(a.name, c.byName[a.name]))
    ensures r.Ok? <==> a.key !in c.byKey && a.name !in c.byName
    ensures r.Ok? ==>
      && r.value.byKey.Keys == c.byKey.Keys + {a.key} && r.value.byKey[a.key] == a
      && r.value.byName.Keys == c.byName.Keys + {a.name} && r.value.byName[a.name] == a
      && (forall k :: k in c.byKey ==> r.value.byKey[k] == c.byKey[k])
      && (forall n :: n in c.byName ==> r.value.byName[n] == c.byName[n])
      && r.value.order == c.order + [a]
    ensures Valid(c) && r.Ok? ==> Valid(r.value)
  {
    if a.key in c.byKey then Err(KeyCollision(a.key, c.byKey[a.key]))
    else if a.name in c.byName then Err(NameCollision(a.name, c.byName[a.name]))
    else
      InsertPreservesValid(c, a);
      Ok(Insert(c, a))
  }

  /** Files `a` under its key and its name, after the last attribute. */
  function Insert<V>(c: AttributeCollection<V>, a: Attribute<V>): AttributeCollection<V>
  {
    AttributeCollection(c.byKey[a.key := a], c.byName[a.name := a], c.order + [a])
  }

  /** Inserting an attribute whose key and name are both unused keeps the
      collection invariant. */
  lemma InsertPreservesValid<V>(c: AttributeCollection<V>, a: Attribute<V>)
    requires a.key !in c.byKey && a.name !in c.byName
    ensures Valid(c) ==> Valid(Insert(c, a))
  {
    if Valid(c) {
      InsertKeepsKeysIndexed(c, a);
      InsertKeepsNamesIndexed(c, a);
      InsertKeepsOrderIndexed(c, a);
      InsertKeepsDistinct(c, a);
      FreshUpdateGrows(c.byKey, a.key, a);
      FreshUpdateGrows(c.byName, a.name, a);
    }
  }

  /** Filing a value under an unused key adds one entry. */
  lemma FreshUpdateGrows<K, T>(m: map<K, T>, k: K, v: T)
    requires k !in m
    ensures |m[k := v]| == |m| + 1
  {
    assert m[k := v].Keys == m.Keys + {k};
  }

  lemma InsertKeepsKeysIndexed<V>(c: AttributeCollection<V>, a: Attribute<V>)
    requires KeysIndexed(c)
    ensures KeysIndexed(Insert(c, a))
  {
    var d := Insert(c, a);
    assert d.order[|c.order|] == a;
    forall k | k in d.byKey
      ensures d.byKey[k].key == k && d.byKey[k] in d.order
    {
      if k != a.key {
        var i :| 0 <= i < |c.order| && c.order[i] == c.byKey[k];
        assert d.order[i] == c.order[i];
      }
    }
  }

  lemma InsertKeepsNamesIndexed<V>(c: AttributeCollection<V>, a: Attribute<V>)
    requires NamesIndexed(c)
    ensures NamesIndexed(Insert(c, a))
  {
    var d := Insert(c, a);
    assert d.order[|c.order|] == a;
    forall n | n in d.byName
      ensures d.byName[n].name == n && d.byName[n] in d.order
    {
      if n != a.name {
        var i :| 0 <= i < |c.order| && c.order[i] == c.byName[n];
        assert d.order[i] == c.order[i];
      }
    }
  }

  lemma InsertKeepsOrderIndexed<V>(c: AttributeCollection<V>, a: Attribute<V>)
    requires a.key !in c.byKey && a.name !in c.byName
    requires OrderIndexed(c)
    ensures OrderIndexed(Insert(c, a))
  {
    var d := Insert(c, a);
    forall i | 0 <= i < |d.order|
      ensures d.order[i].key in d.byKey && d.byKey[d.order[i].key] == d.order[i]
      ensures d.order[i].name in d.byName && d.byName[d.order[i].name] == d.order[i]
    {
      if i < |c.order| {
        assert d.order[i] == c.order[i];
      }
    }
  }

  lemma InsertKeepsDistinct<V>(c: AttributeCollection<V>, a: Attribute<V>)
    requires a.key !in c.byKey && a.name !in c.byName
    requires OrderIndexed(c) && Distinct(c.order)
    ensures Distinct(Insert(c, a).order)
  {
    var d := Insert(c, a);
    forall i, j | 0 <= i < j < |d.order|
      ensures d.order[i].key != d.order[j].key && d.order[i].name != d.order[j].name
    {
      assert d.order[i] == c.order[i];
      if j < |c.order| {
        assert d.order[j] == c.order[j];
      }
    }
  }

  /** Turns one constructor element into an Attribute: an Attribute is kept,
      a dict is passed as keyword arguments, a tuple or list as positional
      arguments, and anything else is refused. */
  function Normalize<V>(item: Item<V>): (r: Result<Attribute<V>, CollectionError<V>>)
    ensures item.AttributeItem? ==> r == Ok(item.attr)
    ensures item.DictItem? ==> r == WithCallFault(FromKeywords(item.kw))
    ensures item.SequenceItem? ==> r == WithCallFault(FromPositional(item.args))
    ensures item.OtherItem? ==> r == Err(UnsupportedItem)
    ensures r.Err? ==> r.error.BadCall? || r.error == UnsupportedItem
  {
    match item
    case AttributeItem(a) => Ok(a)
    case DictItem(kw) => WithCallFault(FromKeywords(kw))
    case SequenceItem(args) => WithCallFault(FromPositional(args))
    case OtherItem => Err(UnsupportedItem)
  }

  /** A failed `Attribute(...)` call, as a constructor error. */
  function WithCallFault<V>(call: Result<Attribute<V>, CallFault>): Result<Attribute<V>, CollectionError<V>>
  {
    match call
    case Ok(a) => Ok(a)
    case Err(f) => Err(BadCall(f))
  }

  /** Normalizes and adds the elements one after another, stopping at the
      first failure. */
  function BuildFrom<V>(c: AttributeCollection<V>, items: seq<Item<V>>): (r: Result<AttributeCollection<V>, CollectionError<V>>)
    ensures Valid(c) && r.Ok? ==> Valid(r.value)
    ensures r.Ok? ==> |r.value.order| == |c.order| + |items| && c.order <= r.value.order
    decreases |items|
  {
    if |items| == 0 then Ok(c)
    else
      var a :- Normalize(items[0]);
      var next :- Add(c, a);
      BuildFrom(next, items[1..])
  }

  /** `AttributeCollection(*items)`, as a value. */
  function Build<V>(items: seq<Item<V>>): (r: Result<AttributeCollection<V>, CollectionError<V>>)
    ensures r.Ok? ==> Valid(r.value) && |r.value.order| == |items|
  {
    BuildFrom(Empty(), items)
  }

  /** `AttributeCollection.__init__`: the loop over the positional
      arguments.  yamlize accepts keyword arguments there and ignores them,
      so they are not parameters here. */
  method Init<V>(items: seq<Item<V>>) returns (r: Result<AttributeCollection<V>, CollectionError<V>>)
    ensures r == Build(items)
    ensures r.Ok? ==> Valid(r.value) && |r.value.order| == |items|
  {
    var c := Empty();
    var i := 0;
    while i < |items|
      invariant 0 <= i <= |items|
      invariant BuildFrom(c, items[i..]) == Build(items)
    {
      var a :- Normalize(items[i]);
      c :- Add(c, a);
      assert items[i..][1..] == items[i + 1..];
      i := i + 1;
    }
    r := Ok(c);
  }

  /* ---------------------------------------------------------------------
     Properties of the collection
     --------------------------------------------------------------------- */

  /** Each attribute listed in a valid collection is what both maps return
      for its key and for its name. */
  lemma LookupSymmetry<V>(c: AttributeCollection<V>, a: Attribute<V>)
    requires Valid(c) && a in c.order
    ensures a.key in c.byKey && c.byKey[a.key] == a
    ensures a.name in c.byName && c.byName[a.name] == a
  {
    var i :| 0 <= i < |c.order| && c.order[i] == a;
  }

  /** The two maps of a valid collection index the same attributes, namely
      those listed in `order`. */
  lemma IndexesHoldSameAttributes<V>(c: AttributeCollection<V>)
    requires Valid(c)
    ensures c.byKey.Values == c.byName.Values == (set a | a in c.order)
  {
    forall a | a in c.order
      ensures a in c.byKey.Values && a in c.byName.Values
    {
      LookupSymmetry(c, a);
    }
    forall a | a in c.byKey.Values
      ensures a in c.order
    {
      var k :| k in c.byKey && c.byKey[k] == a;
    }
    forall a | a in c.byName.Values
      ensures a in c.order
    {
      var n :| n in c.byName && c.byName[n] == a;
    }
  }

  /** `attrs` can be added to `c` one by one without a clash. */
  ghost predicate Fresh<V>(c: AttributeCollection<V>, attrs: seq<Attribute<V>>)
  {
    && (forall i :: 0 <= i < |attrs| ==> attrs[i].key !in c.byKey && attrs[i].name !in c.byName)
    && Distinct(attrs)
  }

  /** Freshness of a sequence, one attribute at a time. */
  lemma FreshStep<V>(c: AttributeCollection<V>, attrs: seq<Attribute<V>>)
    requires |attrs| > 0 && attrs[0].key !in c.byKey && attrs[0].name !in c.byName
    ensures Fresh(c, attrs) <==> Fresh(Insert(c, attrs[0]), attrs[1..])
  {
    var a, rest, d := attrs[0], attrs[1..], Insert(c, attrs[0]);
    if Fresh(c, attrs) {
      forall j | 0 <= j < |rest|
        ensures rest[j].key !in d.byKey && rest[j].name !in d.byName
      {
        assert rest[j] == attrs[j + 1];
      }
      forall i, j | 0 <= i < j < |rest|
        ensures rest[i].key != rest[j].key && rest[i].name != rest[j].name
      {
        assert rest[i] == attrs[i + 1] && rest[j] == attrs[j + 1];
      }
    }
    if Fresh(d, rest) {
      forall i | 0 <= i < |attrs|
        ensures attrs[i].key !in c.byKey && attrs[i].name !in c.byName
      {
        if i > 0 {
          assert attrs[i] == rest[i - 1];
        }
      }
      forall i, j | 0 <= i < j < |attrs|
        ensures attrs[i].key != attrs[j].key && attrs[i].name != attrs[j].name
      {
        assert attrs[j] == rest[j - 1];
        if i > 0 {
          assert attrs[i] == rest[i - 1];
        }
      }
    }
  }

  /** Adds already built attributes one after another, stopping at the
      first clash: the loop of the constructor when every element is an
      Attribute. */
  function AddAll<V>(c: AttributeCollection<V>, attrs: seq<Attribute<V>>): Result<AttributeCollection<V>, CollectionError<V>>
    decreases |attrs|
  {
    if |attrs| == 0 then Ok(c)
    else
      var next :- Add(c, attrs[0]);
      AddAll(next, attrs[1..])
  }

  /** Adding attributes one by one succeeds exactly when none of them
      clashes with the collection or with another, and then appends them in
      order. */
  lemma AddAllSucceedsIff<V>(c: AttributeCollection<V>, attrs: seq<Attribute<V>>)
    ensures AddAll(c, attrs).Ok? <==> Fresh(c, attrs)
    ensures AddAll(c, attrs).Ok? ==> AddAll(c, attrs).value.order == c.order + attrs
  {
    if Fresh(c, attrs) {
      FreshAttributesAdded(c, attrs);
    } else {
      ClashingAttributesRefused(c, attrs);
    }
  }

  lemma {:induction false} FreshAttributesAdded<V>(c: AttributeCollection<V>, attrs: seq<Attribute<V>>)
    requires Fresh(c, attrs)
    ensures AddAll(c, attrs).Ok? && AddAll(c, attrs).value.order == c.order + attrs
    decreases |attrs|
  {
    if |attrs| > 0 {
      var a := attrs[0];
      assert a.key !in c.byKey && a.name !in c.byName;
      FreshStep(c, attrs);
      FreshAttributesAdded(Insert(c, a), attrs[1..]);
      AppendFirst(c.order, attrs);
    }
  }

  lemma {:induction false} ClashingAttributesRefused<V>(c: AttributeCollection<V>, attrs: seq<Attribute<V>>)
    requires !Fresh(c, attrs)
    ensures AddAll(c, attrs).Err?
    decreases |attrs|
  {
    var a := attrs[0];
    if a.key !in c.byKey && a.name !in c.byName {
      FreshStep(c, attrs);
      ClashingAttributesRefused(Insert(c, a), attrs[1..]);
    }
  }

  /** Moving the first element of `ys` to the end of `xs`. */
  lemma AppendFirst<T>(xs: seq<T>, ys: seq<T>)
    requires |ys| > 0
    ensures xs + ys == (xs + [ys[0]]) + ys[1..]
  {
    assert ys == [ys[0]] + ys[1..];
  }

  /** Each element of `items` normalizes to the attribute at the same position. */
  ghost predicate NormalizesTo<V>(items: seq<Item<V>>, attrs: seq<Attribute<V>>)
  {
    |items| == |attrs| && forall i :: 0 <= i < |items| ==> Normalize(items[i]) == Ok(attrs[i])
  }

  /** Normalizing each element as it is reached is the same as adding the
      attributes they normalize to. */
  lemma {:induction false} BuildFromNormalized<V>(c: AttributeCollection<V>, items: seq<Item<V>>, attrs: seq<Attribute<V>>)
    requires NormalizesTo(items, attrs)
    ensures BuildFrom(c, items) == AddAll(c, attrs)
    decreases |items|
  {
    if |items| > 0 {
      var a := attrs[0];
      assert Normalize(items[0]) == Ok(a);
      BuildFromStep(c, items, a);
      if a.key !in c.byKey && a.name !in c.byName {
        forall i | 0 <= i < |items[1..]|
          ensures Normalize(items[1..][i]) == Ok(attrs[1..][i])
        {
          assert items[1..][i] == items[i + 1];
        }
        BuildFromNormalized(Insert(c, a), items[1..], attrs[1..]);
      }
    }
  }

  /** One step of the construction loop, for an element that normalizes. */
  lemma BuildFromStep<V>(c: AttributeCollection<V>, items: seq<Item<V>>, a: Attribute<V>)
    requires |items| > 0 && Normalize(items[0]) == Ok(a)
    ensures a.key in c.byKey ==> BuildFrom(c, items) == Err(KeyCollision(a.key, c.byKey[a.key]))
    ensures a.key !in c.byKey && a.name in c.byName ==> BuildFrom(c, items) == Err(NameCollision(a.name, c.byName[a.name]))
    ensures a.key !in c.byKey && a.name !in c.byName ==> BuildFrom(c, items) == BuildFrom(Insert(c, a), items[1..])
  {
  }

  /** A collection built from elements that normalize to `attrs` exists
      exactly when `attrs` repeat no key and no name; it then holds `attrs`
      in their order. */
  lemma BuildSucceedsIff<V>(items: seq<Item<V>>, attrs: seq<Attribute<V>>)
    requires NormalizesTo(items, attrs)
    ensures Build(items).Ok? <==> Distinct(attrs)
    ensures Build(items).Ok? ==> Build(items).value.order == attrs
  {
    BuildFromNormalized(Empty(), items, attrs);
    AddAllSucceedsIff(Empty(), attrs);
    assert Empty<V>().order + attrs == attrs;
  }

  /** A construction that succeeds has normalized every element: an
      element that is not an Attribute, a dict, a tuple or a list, or whose
      `Attribute(...)` call fails, makes it fail. */
  lemma {:induction false} BuildNeedsEveryElement<V>(c: AttributeCollection<V>, items: seq<Item<V>>)
    ensures BuildFrom(c, items).Ok? ==> forall i :: 0 <= i < |items| ==> Normalize(items[i]).Ok?
    decreases |items|
  {
    if |items| > 0 && BuildFrom(c, items).Ok? {
      var a := Normalize(items[0]).value;
      var next := Add(c, a).value;
      assert BuildFrom(c, items) == BuildFrom(next, items[1..]);
      BuildNeedsEveryElement(next, items[1..]);
      forall i | 1 <= i < |items|
        ensures Normalize(items[i]).Ok?
      {
        assert items[i] == items[1..][i - 1];
      }
    }
  }

  /** Only what each element normalizes to matters: element sequences that
      normalize alike build the same collection, or fail alike. */
  lemma {:induction false} BuildAgreesOnNormalization<V>(c: AttributeCollection<V>, xs: seq<Item<V>>, ys: seq<Item<V>>)
    requires |xs| == |ys|
    requires forall i :: 0 <= i < |xs| ==> Normalize(xs[i]) == Normalize(ys[i])
    ensures BuildFrom(c, xs) == BuildFrom(c, ys)
    decreases |xs|
  {
    if |xs| > 0 {
      assert Normalize(xs[0]) == Normalize(ys[0]);
      match Normalize(xs[0])
      case Err(_) =>
      case Ok(a) =>
        match Add(c, a)
        case Err(_) =>
        case Ok(next) =>
          forall i | 0 <= i < |xs[1..]|
            ensures Normalize(xs[1..][i]) == Normalize(ys[1..][i])
          {
            assert xs[1..][i] == xs[i + 1] && ys[1..][i] == ys[i + 1];
          }
          BuildAgreesOnNormalization(next, xs[1..], ys[1..]);
    }
  }

  /** Building from `items + more` is building from `items`, then from
      `more`; in particular the first failure aborts the whole construction
      and nothing after it is looked at. */
  lemma {:induction false} BuildComposes<V>(c: AttributeCollection<V>, items: seq<Item<V>>, more: seq<Item<V>>)
    ensures BuildFrom(c, items + more) ==
      match BuildFrom(c, items)
      case Ok(d) => BuildFrom(d, more)
      case Err(e) => Err(e)
    decreases |items|
  {
    if |items| == 0 {
      assert items + more == more;
    } else {
      assert (items + more)[0] == items[0];
      assert (items + more)[1..] == items[1..] + more;
      match Normalize(items[0])
      case Err(_) =>
      case Ok(a) =>
        match Add(c, a)
        case Err(_) =>
        case Ok(next) =>
          BuildComposes(next, items[1..], more);
    }
  }

  /** Two attributes with the same key: the second is refused, naming the first. */
  lemma KeyCollisionRejected<V>(a: Attribute<V>, b: Attribute<V>)
    requires a.key == b.key
    ensures Build([AttributeItem(a), AttributeItem(b)]) == Err(KeyCollision(b.key, a))
  {
    var one := Insert(Empty(), a);
    assert BuildFrom(Empty(), [AttributeItem(a), AttributeItem(b)]) == BuildFrom(one, [AttributeItem(b)]);
  }

  /** Two attributes with different keys but the same name: the second is
      refused, naming the first. */
  lemma NameCollisionRejected<V>(a: Attribute<V>, b: Attribute<V>)
    requires a.key != b.key && a.name == b.name
    ensures Build([AttributeItem(a), AttributeItem(b)]) == Err(NameCollision(b.name, a))
  {
    var one := Insert(Empty(), a);
    assert BuildFrom(Empty(), [AttributeItem(a), AttributeItem(b)]) == BuildFrom(one, [AttributeItem(b)]);
  }

  /** A collection built from `(name, key, type, default)` tuples equals the
      one built from the corresponding Attribute objects. */
  lemma TuplesBuildLikeAttributes<V>(specs: seq<(string, Option<string>, DeclaredType, DefaultValue<V>)>)
    ensures Build(seq(|specs|, i requires 0 <= i < |specs| =>
                SequenceItem(TupleOf(specs[i].0, specs[i].1, specs[i].2, specs[i].3))))
         == Build(seq(|specs|, i requires 0 <= i < |specs| =>
                AttributeItem(NewAttribute(specs[i].0, specs[i].1, specs[i].2, specs[i].3))))
  {
    var xs := seq(|specs|, i requires 0 <= i < |specs| =>
                SequenceItem(TupleOf(specs[i].0, specs[i].1, specs[i].2, specs[i].3)));
    var ys := seq(|specs|, i requires 0 <= i < |specs| =>
                AttributeItem(NewAttribute(specs[i].0, specs[i].1, specs[i].2, specs[i].3)));
    forall i | 0 <= i < |xs|
      ensures Normalize(xs[i]) == Normalize(ys[i])
    {
    }
    BuildAgreesOnNormalization(Empty(), xs, ys);
  }
}

=== FILE: wrappers.dfy ===
/** Failure-carrying datatypes standing in for Python's raised exceptions. */
module Wrappers {

  /** An optional value: Python's `None` versus a present value. */
  datatype Option<+T> = None | Some(value: T)

  /** The outcome of an operation that either returns a value or raises. */
  datatype Result<+T, +E> = Ok(value: T) | Err(error: E) {

    predicate IsFailure() {
      Err?
    }

    function PropagateFailure<U>(): Result<U, E>
      requires Err?
    {
      Err(error)
    }

    function Extract(): T
      requires Ok?
    {
      value
    }
  }
}
